=== FILE: README.md ===
# ModelHub provider-dispatch core, in Dafny

ModelHub is a small HTTP façade in front of several machine-learning model
providers (HuggingFace, Replicate, Stability, OpenAI, Claude, Gemini). This
project models the pure decision logic behind its three operations and the
request checks of two routers the repository defines but does not mount:

- **Metadata comparator** (`ModelComparison`). It classifies each model id
  into a provider family by prefix. It then resolves a metadata record, either
  from a HuggingFace model response or from the static OpenAI/Claude/Gemini
  price and capability tables, and uses the all-default record when the lookup
  fails. Finally it projects each record onto the requested metrics.
- **Inference dispatcher** (`InferenceRunner`). It maps a provider tag, the
  modality and the credentials to exactly one `(url, body, headers)` request,
  or to an error: an unknown provider or a missing key. It hands the upstream
  body back unchanged.
- **Demo-URL resolver** (`DemoUrlResolver`). It switches on the provider. The
  HuggingFace and Replicate lookups fall back to the model's canonical page,
  and Stability answers with a constant.
- **Route validators** (`CompareRoute`, `DemoRoute`). These are the ordered
  checks of the Express routers in `src/routes/compare.ts` and
  `src/routes/demo.ts`, which either reject with a message or forward to the
  tool. The app in `src/index.ts` does not mount these routers: its own
  `POST /compare` and `POST /demo` handlers call the tools directly. The
  statements below about the routes are about these routers.

Shared modules:
- `Wrappers`: `Option`, `Result`, and `Upstream`, the outcome of one outbound call.
- `JsonValue`: opaque JSON payloads.
- `Providers`: the closed provider set and its tags.
- `Metrics`: the five metric names.
- `Strings`: JavaScript's `join`.
- `Scenarios`: concrete cases from the repository's test cases and its price tables.

Every network call is a parameter of type `Upstream<T>`, either `Ok(data)` or
`Fail(reason)`. The environment is a `map<string, string>` from variable name
to value. A credential counts as present when its variable is set and not
empty, which is what `!apiKey` tests.

Where the repository's tests (`src/__tests__/tools/fetchDemoURL.test.ts`)
expect something the code does not do, the model follows the code. Those tests
expect a bare URL string, and vendor documentation URLs for openai, claude and
gemini. The code does neither:
- `fetchDemoURL` handles only huggingface, replicate and stability. For every
  other tag, openai, claude and gemini included, it fails with
  `Unsupported provider: <tag>`. It also returns the object `{ demoUrl }`, not
  a bare string. The demo router wraps that object again, so its 200 body is
  `{ demoUrl: { demoUrl: s } }` (`DemoRoute.Served`). The app's own `/demo`
  handler returns the object as is, wrapped once.
- The demo router's allowlist is {huggingface, openai, claude, gemini}. As a
  result only huggingface is ever served by the demo router. openai, claude and gemini pass the
  route and then fail in the resolver. replicate and stability are refused
  before the resolver sees them.
- The HuggingFace demo uses the *first* space's `url`, and only when that url
  is non-empty. A non-empty url in a later space is not used. Replicate's
  `url` is used only when it is non-empty.
- Invalid metric names are rejected by the compare router only. The comparator
  itself ignores names it does not recognise.

## Model

| member | source | states |
|---|---|---|
| ModelComparison.DetermineProvider | src/tools/compareModels.ts:86-91 | openai iff the id starts with `gpt-` or `text-`, claude iff `claude-`, gemini iff `gemini-`, huggingface iff none of these; never replicate or stability |
| ModelComparison.PrefixesExclusive | src/tools/compareModels.ts:86-91 | no id carries two family prefixes, so the order of the prefix checks does not matter |
| ModelComparison.HuggingFaceMetadata | src/tools/compareModels.ts:103-119 | modality is the pipeline tag, or `unknown` when it is missing or empty. text/image/audio hold iff the modality is exactly `text-generation`/`image-generation`/`audio-to-text`. video is false. multimodal holds iff the response's tags contain `multimodal`. The record's tags are the response's tags (empty when missing). latency is the downloads, popularity the likes (0 when missing). cost is zero |
| ModelComparison.OpenAIMetadata | src/tools/compareModels.ts:122-150 | modality `text`, latency 100, popularity 1000. A listed id gets its table cost and capabilities. Any other id gets zero cost and text-only capabilities |
| ModelComparison.ClaudeMetadata | src/tools/compareModels.ts:152-174 | modality `text`, latency 80, popularity 800. The capability set is the same for every id. Cost comes from the table, or is zero for an unlisted id |
| ModelComparison.GeminiMetadata | src/tools/compareModels.ts:176-197 | modality `multimodal`, latency 60, popularity 600. The capability set is the same for every id. Cost comes from the table, or is zero for an unlisted id |
| ModelComparison.FetchModelMetadata | src/tools/compareModels.ts:57-84 | dispatches on the provider family: a successful HuggingFace lookup yields exactly the record derived from the response, and openai, claude and gemini ids yield exactly their table records. A failed HuggingFace lookup yields the default record (`unknown`, 0, 0, zero cost, no capabilities) |
| ModelComparison.StaticFamiliesIgnoreLookup | src/tools/compareModels.ts:68-79 | for the OpenAI, Claude and Gemini families the lookup outcome is irrelevant: only HuggingFace performs a lookup |
| ModelComparison.SetField | src/tools/compareModels.ts:46-50 | one metric sets only its own field, with the model's value; an unrecognised name changes nothing |
| ModelComparison.ProjectFrom | src/tools/compareModels.ts:45-51 | after the `forEach`, a field is present iff it already was or its metric was requested, and every present field carries the model's value |
| ModelComparison.Project | src/tools/compareModels.ts:42-54 | the row keeps `id`, and holds latency/modality/popularity/cost/capabilities exactly when requested, with the record's values. It has no `tags` field |
| ModelComparison.CompareModels | src/tools/compareModels.ts:27-55 | one row per input id, in input order, duplicates included. Row i is built from `models[i]` and its own lookup outcome |
| ModelComparison.RowsFollowInput | src/tools/compareModels.ts:31-39 | row i's `id` is `models[i]`, and each of the five fields (latency, modality, popularity, cost, capabilities) is present iff its name is requested |
| ModelComparison.HuggingFaceRowFromResponse | src/tools/compareModels.ts:93-119 | for a HuggingFace id whose lookup succeeded, the requested latency, popularity and modality come from the response's downloads, likes and pipeline tag (`unknown` when missing or empty), and cost is zero |
| ModelComparison.ProjectDependsOnMetricSet | src/tools/compareModels.ts:45-51 | two metric lists with the same elements give the same row: reordering and repeating metrics change nothing |
| ModelComparison.LookupFailureIsolated | src/tools/compareModels.ts:31-39 | changing one model's lookup outcome leaves every other model's row unchanged |
| Providers.Parse | src/tools/inferenceRunner.ts:13-28 | a tag is recognised iff it is one of the six provider tags, and parsing gives back the provider with that tag |
| Providers.ParseTag | src/tools/inferenceRunner.ts:5 | the six tags are distinct |
| Metrics.Parse | src/routes/compare.ts:23 | a name is a metric iff it is one of the five valid names |
| Metrics.ParseName | src/routes/compare.ts:23 | each metric's name is valid and parses back to that metric |
| InferenceRunner.WithModel | src/tools/inferenceRunner.ts:100-104 | the body has every input key plus `model`. Input values are kept, so `input.model` overrides the model id |
| InferenceRunner.ProviderRequest | src/tools/inferenceRunner.ts:31-154 | every built request declares a JSON content type. Each provider's URL, body and complete header map (no header beyond the source's) are stated by the per-provider lemmas below |
| InferenceRunner.BuildRequest | src/tools/inferenceRunner.ts:10-29 | an unknown tag fails naming the tag. A known provider fails iff its own credential is missing, with that provider's error |
| InferenceRunner.Run | src/tools/inferenceRunner.ts:10-154 | no request is sent when building fails. Success iff a request was sent and the upstream succeeded, returning the upstream body unchanged. An upstream failure keeps its own message |
| InferenceRunner.UnsupportedProviderMessage | src/tools/inferenceRunner.ts:26-27 | an unknown provider sends nothing and fails with `Unsupported provider: <tag>` |
| InferenceRunner.CredentialIsolation | src/tools/inferenceRunner.ts:31-33 | the request depends on the environment only through the selected provider's own variable |
| InferenceRunner.HuggingFaceRequest | src/tools/inferenceRunner.ts:35-44 | posts the input verbatim to `https://api-inference.huggingface.co/models/<modelId>` with Bearer auth |
| InferenceRunner.ReplicateRequest | src/tools/inferenceRunner.ts:53-65 | posts `{version: modelId, input}` to the fixed predictions URL with Token auth |
| InferenceRunner.StabilityIgnoresModelId | src/tools/inferenceRunner.ts:70-85 | the request is the same for every model id. It goes to the fixed text-to-image URL with `Bearer <key>` auth, and its body is the input verbatim |
| InferenceRunner.OpenAIEndpointSelection | src/tools/inferenceRunner.ts:92-97 | `image` selects images/generations, `audio` selects audio/transcriptions, and anything else or no modality selects chat/completions (each iff). Auth is `Bearer <key>` |
| InferenceRunner.ModelKeyOverride | src/tools/inferenceRunner.ts:120-125 | for OpenAI and Claude the body keys are the input keys plus `model`. Input values win, and `model` is the id only when the input has none |
| InferenceRunner.ClaudeHeaders | src/tools/inferenceRunner.ts:116-131 | posts to `https://api.anthropic.com/v1/messages`, sends `x-api-key` and `anthropic-version: 2023-06-01`, and no Authorization header |
| InferenceRunner.GeminiRequest | src/tools/inferenceRunner.ts:142-151 | posts the input verbatim to `…/v1beta/models/<modelId>:generateContent` with `x-goog-api-key`, and no Authorization header |
| DemoUrlResolver.HuggingFaceDemo | src/tools/fetchDemoURL.ts:23-46 | the first space's url when it is non-empty. Otherwise, including a failed fetch, `https://huggingface.co/<modelId>`. Never empty |
| DemoUrlResolver.ReplicateDemo | src/tools/fetchDemoURL.ts:48-64 | `data.url` when it is non-empty. Otherwise, including a failed fetch, `https://replicate.com/<modelId>`. Never empty |
| DemoUrlResolver.FetchDemoUrl | src/tools/fetchDemoURL.ts:8-21 | succeeds iff the tag is huggingface, replicate or stability, always with a non-empty URL. Any other tag fails with `Unsupported provider: <tag>`. huggingface gives exactly the HuggingFace rule's URL, replicate the Replicate rule's, stability the API reference |
| DemoUrlResolver.LookupOrCanonicalPage | src/tools/fetchDemoURL.ts:23-64 | for huggingface and replicate the URL is the looked-up url when it is non-empty, and otherwise, or when the lookup failed, the model's canonical page |
| DemoUrlResolver.HuggingFaceFallback | src/tools/fetchDemoURL.ts:40-45 | no spaces, or a failed fetch, give the model page and no error |
| DemoUrlResolver.StabilityConstant | src/tools/fetchDemoURL.ts:66-70 | the Stability answer is `https://platform.stability.ai/docs/api-reference` for every model id and every lookup state |
| Strings.Join | src/routes/compare.ts:28 | joining no names gives the empty string, one name gives that name, and every joined name fits in the result |
| Strings.JoinAppend | src/routes/compare.ts:28 | joining two non-empty lists end to end equals their joins with one separator between |
| CompareRoute.InvalidMetrics | src/routes/compare.ts:23-24 | a name is listed iff it occurs in the request and is not valid. The list is empty iff every requested name is valid |
| CompareRoute.InvalidMetricsAppend | src/routes/compare.ts:24 | the invalid list distributes over concatenation, so it keeps the request's order and its repetitions |
| CompareRoute.ValidateCompare | src/routes/compare.ts:10-30 | a models error comes first, then a metrics error, then the invalid-metrics message listing the invalid names. Success iff both arrays are non-empty and every metric is valid, forwarding both arrays unchanged |
| CompareRoute.HandleCompare | src/routes/compare.ts:22-33 | the comparator runs iff validation passes. It then returns exactly the comparator's rows for the two arrays: one row per model, with row i's id equal to `models[i]` |
| CompareRoute.ModelsCheckedFirst | src/routes/compare.ts:10-14 | a missing, non-array or empty `models` is rejected whatever `metrics` holds |
| DemoRoute.HandleDemo | src/routes/demo.ts:6-31 | a missing model id is rejected first, then a missing provider, then a provider outside the allowlist (the message names it). The resolver runs iff all three checks pass. The reply is then served iff the resolver succeeds, carrying the resolver's value, and is otherwise a server error carrying the resolver's message |
| DemoRoute.OnlyHuggingFaceServed | src/routes/demo.ts:18-26 | route and resolver together serve a request iff it has a model id and the provider is huggingface |
| DemoRoute.AllowlistedVendorsFail | src/routes/demo.ts:18-29 | openai, claude and gemini pass the allowlist. The resolver then fails with `Unsupported provider: <tag>` |
| DemoRoute.ResolvableProvidersRejected | src/routes/demo.ts:18-23 | replicate and stability are refused with the invalid-provider message, although the resolver would handle them |
| Scenarios.Gpt4CostAndCapabilities | src/tools/compareModels.ts:124-134 | `gpt-4` with cost and capabilities requested gives cost {0.03, 0.06}, capabilities text+image+multimodal, and nothing else |
| Scenarios.HuggingFaceRow | src/__tests__/tools/compareModels.test.ts:13-38 | a text-generation response with 1000 downloads and 500 likes gives latency 1000, that modality and popularity 500 |
| Scenarios.FailedLookupRow | src/__tests__/tools/compareModels.test.ts:83-100 | a rejected lookup of `test-model-1` with latency, modality and popularity requested gives 0, `unknown` and 0 |
| Scenarios.FailedLookupAllMetrics | src/tools/compareModels.ts:80-83 | with all five metrics requested, a rejected lookup shows the whole default record |
| Scenarios.HuggingFaceInference | src/__tests__/tools/inferenceRunner.test.ts:13-30 | the HuggingFace call goes to the model's URL with the prompt as body, and returns the upstream body |
| Scenarios.DemoWithoutSpaces | src/routes/demo.ts:25-26 | a model with an empty spaces list is served its model page, wrapped twice in `demoUrl` |

## Left out

- The Express app in `src/index.ts`: `dotenv` loading, port binding, and its own `POST /inference`, `POST /compare` and `POST /demo` handlers (`src/index.ts:13-38`). Those handlers pass the raw body to the tools without any validation, and the file does not mount the routers in `src/routes/`. On the app as wired, invalid metric names are therefore not rejected, replicate and stability demo URLs are served, and a `/demo` 200 body is wrapped once. The handlers themselves are not modelled: each is a tool call followed by a JSON reply or a 500 with the error message. In particular, an absent or non-array `models` or `metrics` makes `compareModels` throw a TypeError (`src/tools/compareModels.ts:32` and `:45`), which the app's `/compare` handler (`src/index.ts:22-29`) returns as a 500. That reply is not modelled, because `ModelComparison.CompareModels` takes both arguments as lists of strings.
- The inference router (`src/routes/inference.ts`): it makes no decision of its own and only forwards the body to the runner.
- InferenceRunner.InferenceRequest: `modelId`, `provider` and `input` are always present, but both the app's `/inference` handler (`src/index.ts:13-15`) and the inference router (`src/routes/inference.ts:6-8`) hand the raw body to the runner without checking it. A body with no `provider` fails with `Unsupported provider: undefined`; one with no `modelId` is sent to a HuggingFace URL ending in `undefined` (`src/tools/inferenceRunner.ts:36`) or a Gemini URL ending in `undefined:generateContent` (line 143), while Replicate, OpenAI and Claude carry the id in the body, where JSON drops the undefined `version` or `model` (lines 56, 102, 123), and Stability ignores it. A body with no `input` is posted with no body to HuggingFace, Stability and Gemini, as `{version}` alone to Replicate (lines 55-58), and as `{model}` alone to OpenAI and Claude. Those bodies are not modelled.
- HTTP status codes and JSON serialisation. A reply is modelled as a datatype variant (bad request, rows or served URL, server error).
- Transport: each `axios` call is an `Upstream` outcome passed in. The metadata and demo lookups' own URLs and their Authorization headers are therefore not modelled.
- `Promise.all` concurrency: the comparator is a sequential map. Its ordering and per-model isolation are proved instead.
- `console.error` logging.
- JSON object key order: objects are maps, so the order of keys is not modelled, only the values. This covers `model` among the spread keys of an inference body, and the keys of a comparison row, which the comparator assigns in `metrics` order (`src/tools/compareModels.ts:45-51`). `["cost", "latency"]` and `["latency", "cost"]` therefore give rows that are equal as objects (`ModelComparison.ProjectDependsOnMetricSet`) but serialise with different key orders.
- Field values of JavaScript types the code does not expect are not modelled, because the record types cannot hold them. Examples: a numeric `pipeline_tag`, non-string elements of `models` or `metrics`, a truthy non-string `modelId` or `provider`, and a `tags` or `spaces` value that is not an array. Absent, null and falsy values are modelled where the model carries the field: the HuggingFace and Replicate response fields, the inference `modality`, and the router body fields. The tools' own required inputs (`models` and `metrics` of `compareModels`; `modelId`, `provider` and `input` of the runner) are always present in the model, as the lines above say.
- The compare router's 500 path: no lookup outcome makes the comparator throw in this model, because every lookup error is caught. The router's `catch` is therefore never reached and is omitted.
- Prices are `real` literals. No arithmetic is done on them.

=== FILE: compare_models.dfy ===
/**
 * The metadata comparator: resolves a metadata record per model id (a live
 * HuggingFace lookup or a static price/capability table) and projects each
 * record onto the requested metrics.
 */
module ModelComparison {
  import opened Wrappers
  import opened Providers
  import Metrics

  /** Price per 1K input and output tokens. */
  datatype Cost = Cost(input: real, output: real)

  datatype Capabilities = Capabilities(text: bool, image: bool, audio: bool, video: bool, multimodal: bool)

  /** A resolved metadata record without its id. */
  datatype Metadata = Metadata(
    modality: string,
    latency: int,
    popularity: int,
    tags: seq<string>,
    cost: Cost,
    capabilities: Capabilities)

  /**
   * The fields of a HuggingFace `GET /api/models/<id>` response that the
   * derivation reads. None stands for a field that is absent or null.
   */
  datatype HfModelInfo = HfModelInfo(
    pipelineTag: Option<string>,
    downloads: Option<int>,
    likes: Option<int>,
    tags: Option<seq<string>>)

  /**
   * One output row: the id plus the requested fields. None is a field that
   * is absent from the row (not null, not zero). There is no `tags` field.
   */
  datatype Row = Row(
    id: string,
    latency: Option<int>,
    modality: Option<string>,
    popularity: Option<int>,
    cost: Option<Cost>,
    capabilities: Option<Capabilities>)

  const ZeroCost := Cost(0.0, 0.0)
  const NoCapabilities := Capabilities(false, false, false, false, false)
  const TextOnly := Capabilities(true, false, false, false, false)

  /** The record substituted whenever a lookup fails. */
  const DefaultMetadata := Metadata("unknown", 0, 0, [], ZeroCost, NoCapabilities)

  /**
   * Classifies a model id into a provider family by its prefix. The four
   * prefixes are pairwise exclusive, so each family is characterised by its
   * own prefixes alone, whatever order the checks run in.
   */
  function DetermineProvider(modelId: string): (p: Provider)
    ensures p == OpenAI <==> "gpt-" <= modelId || "text-" <= modelId
    ensures p == Claude <==> "claude-" <= modelId
    ensures p == Gemini <==> "gemini-" <= modelId
    ensures p == HuggingFace <==>
      !("gpt-" <= modelId || "text-" <= modelId || "claude-" <= modelId || "gemini-" <= modelId)
    ensures p != Replicate && p != Stability
  {
    PrefixesExclusive(modelId);
    if "gpt-" <= modelId || "text-" <= modelId then OpenAI
    else if "claude-" <= modelId then Claude
    else if "gemini-" <= modelId then Gemini
    else HuggingFace
  }

  /** No id carries two of the family prefixes: they differ within their first two characters. */
  lemma PrefixesExclusive(s: string)
    ensures "gpt-" <= s ==> !("claude-" <= s) && !("gemini-" <= s)
    ensures "text-" <= s ==> !("claude-" <= s) && !("gemini-" <= s)
    ensures "claude-" <= s ==> !("gemini-" <= s)
  {
    if "gpt-" <= s { assert s[1] == 'p'; }
    if "text-" <= s { assert s[0] == 't'; }
    if "claude-" <= s { assert s[0] == 'c'; }
  }

  /**
   * Derives a record from a HuggingFace model response. The capability
   * flags agree with the reported modality, cost is always zero and video
   * is never claimed.
   */
  function HuggingFaceMetadata(info: HfModelInfo): (m: Metadata)
    ensures m.modality != ""
    ensures Truthy(info.pipelineTag) ==> m.modality == info.pipelineTag.value
    ensures !Truthy(info.pipelineTag) ==> m.modality == "unknown"
    ensures m.capabilities.text <==> m.modality == "text-generation"
    ensures m.capabilities.image <==> m.modality == "image-generation"
    ensures m.capabilities.audio <==> m.modality == "audio-to-text"
    ensures !m.capabilities.video
    ensures m.tags == info.tags.GetOr([])
    ensures m.capabilities.multimodal <==> info.tags.Some? && "multimodal" in info.tags.value
    ensures m.latency == info.downloads.GetOr(0) && m.popularity == info.likes.GetOr(0)
    ensures m.cost == ZeroCost
  {
    var tag := info.pipelineTag;
    var tags := info.tags.GetOr([]);
    Metadata(
      if Truthy(tag) then tag.value else "unknown",
      info.downloads.GetOr(0),
      info.likes.GetOr(0),
      tags,
      ZeroCost,
      Capabilities(
        tag == Some("text-generation"),
        tag == Some("image-generation"),
        tag == Some("audio-to-text"),
        false,
        "multimodal" in tags))
  }

  const OpenAIPricing: map<string, Cost> := map[
    "gpt-4" := Cost(0.03, 0.06),
    "gpt-4-turbo" := Cost(0.01, 0.03),
    "gpt-3.5-turbo" := Cost(0.001, 0.002)]

  const OpenAICapabilities: map<string, Capabilities> := map[
    "gpt-4" := Capabilities(true, true, false, false, true),
    "gpt-4-turbo" := Capabilities(true, true, false, false, true),
    "gpt-3.5-turbo" := Capabilities(true, false, false, false, false)]

  const ClaudePricing: map<string, Cost> := map[
    "claude-3-opus" := Cost(0.015, 0.075),
    "claude-3-sonnet" := Cost(0.003, 0.015),
    "claude-3-haiku" := Cost(0.00025, 0.00125)]

  const GeminiPricing: map<string, Cost> := map[
    "gemini-pro" := Cost(0.00025, 0.0005),
    "gemini-pro-vision" := Cost(0.00025, 0.0005)]

  /** The capability set Claude and Gemini report for every model id. */
  const VendorCapabilities := Capabilities(true, true, false, false, true)

  /** The price a table lists for an id, or zero for an id it does not list. */
  function PriceOf(table: map<string, Cost>, modelId: string): Cost {
    if modelId in table then table[modelId] else ZeroCost
  }

  /** Static OpenAI record: listed ids get their table entries, others zero cost and text only. */
  function OpenAIMetadata(modelId: string): (m: Metadata)
    ensures m.modality == "text"
    ensures m.latency == 100 && m.popularity == 1000
    ensures m.capabilities.text
    ensures modelId in OpenAIPricing ==> m.cost == OpenAIPricing[modelId]
    ensures modelId in OpenAICapabilities ==> m.capabilities == OpenAICapabilities[modelId]
    ensures modelId !in OpenAIPricing ==> m.cost == ZeroCost
    ensures modelId !in OpenAICapabilities ==> m.capabilities == TextOnly
  {
    Metadata(
      "text", 100, 1000, ["openai", "llm"],
      PriceOf(OpenAIPricing, modelId),
      if modelId in OpenAICapabilities then OpenAICapabilities[modelId] else TextOnly)
  }

  /** Static Claude record: one capability set for every id, price from the table or zero. */
  function ClaudeMetadata(modelId: string): (m: Metadata)
    ensures m.modality == "text"
    ensures m.latency == 80 && m.popularity == 800
    ensures m.capabilities == VendorCapabilities
    ensures modelId in ClaudePricing ==> m.cost == ClaudePricing[modelId]
    ensures modelId !in ClaudePricing ==> m.cost == ZeroCost
  {
    Metadata("text", 80, 800, ["anthropic", "llm"], PriceOf(ClaudePricing, modelId), VendorCapabilities)
  }

  /** Static Gemini record: one capability set for every id, price from the table or zero. */
  function GeminiMetadata(modelId: string): (m: Metadata)
    ensures m.modality == "multimodal"
    ensures m.latency == 60 && m.popularity == 600
    ensures m.capabilities == VendorCapabilities
    ensures modelId in GeminiPricing ==> m.cost == GeminiPricing[modelId]
    ensures modelId !in GeminiPricing ==> m.cost == ZeroCost
  {
    Metadata("multimodal", 60, 600, ["google", "llm"], PriceOf(GeminiPricing, modelId), VendorCapabilities)
  }

  /**
   * Resolves one model id. `reply` is what the HuggingFace lookup returned;
   * it is consulted only for the HuggingFace family, and a failed lookup
   * yields the default record.
   */
  function FetchModelMetadata(modelId: string, reply: Upstream<HfModelInfo>): (m: Metadata)
    ensures DetermineProvider(modelId) == HuggingFace && reply.Fail? ==> m == DefaultMetadata
    ensures DetermineProvider(modelId) == HuggingFace && reply.Ok? ==> m == HuggingFaceMetadata(reply.data)
    ensures DetermineProvider(modelId) == OpenAI ==> m == OpenAIMetadata(modelId)
    ensures DetermineProvider(modelId) == Claude ==> m == ClaudeMetadata(modelId)
    ensures DetermineProvider(modelId) == Gemini ==> m == GeminiMetadata(modelId)
  {
    match DetermineProvider(modelId)
    case HuggingFace =>
      (match reply
       case Ok(info) => HuggingFaceMetadata(info)
       case Fail(_) => DefaultMetadata)
    case OpenAI => OpenAIMetadata(modelId)
    case Claude => ClaudeMetadata(modelId)
    case Gemini => GeminiMetadata(modelId)
    case _ => DefaultMetadata
  }

  /** Every field present in `row` carries `model`'s value for it. */
  predicate Agrees(row: Row, model: Metadata) {
    && (row.latency.Some? ==> row.latency.value == model.latency)
    && (row.modality.Some? ==> row.modality.value == model.modality)
    && (row.popularity.Some? ==> row.popularity.value == model.popularity)
    && (row.cost.Some? ==> row.cost.value == model.cost)
    && (row.capabilities.Some? ==> row.capabilities.value == model.capabilities)
  }

  /** One step over the requested metrics: copies the named field, if the name is a metric. */
  function SetField(row: Row, model: Metadata, metric: string): (r: Row)
    requires Agrees(row, model)
    ensures Agrees(r, model) && r.id == row.id
    ensures r.latency.Some? <==> row.latency.Some? || metric == "latency"
    ensures r.modality.Some? <==> row.modality.Some? || metric == "modality"
    ensures r.popularity.Some? <==> row.popularity.Some? || metric == "popularity"
    ensures r.cost.Some? <==> row.cost.Some? || metric == "cost"
    ensures r.capabilities.Some? <==> row.capabilities.Some? || metric == "capabilities"
  {
    match Metrics.Parse(metric)
    case Some(Latency) => row.(latency := Some(model.latency))
    case Some(Modality) => row.(modality := Some(model.modality))
    case Some(Popularity) => row.(popularity := Some(model.popularity))
    case Some(Cost) => row.(cost := Some(model.cost))
    case Some(Capabilities) => row.(capabilities := Some(model.capabilities))
    case None => row
  }

  /**
   * Applies each name of `metrics` in turn, starting from `row`: a field ends up
   * present iff it already was or its metric occurs in `metrics`, and every
   * present field carries the model's value.
   */
  function ProjectFrom(row: Row, model: Metadata, metrics: seq<string>): (r: Row)
    requires Agrees(row, model)
    ensures Agrees(r, model) && r.id == row.id
    ensures r.latency.Some? <==> row.latency.Some? || "latency" in metrics
    ensures r.modality.Some? <==> row.modality.Some? || "modality" in metrics
    ensures r.popularity.Some? <==> row.popularity.Some? || "popularity" in metrics
    ensures r.cost.Some? <==> row.cost.Some? || "cost" in metrics
    ensures r.capabilities.Some? <==> row.capabilities.Some? || "capabilities" in metrics
    decreases |metrics|
  {
    if |metrics| == 0 then row
    else
      assert metrics == [metrics[0]] + metrics[1..];
      ProjectFrom(SetField(row, model, metrics[0]), model, metrics[1..])
  }

  /**
   * The row for one model: `id` always, each metric field exactly when its
   * name was requested, unrecognised names adding nothing.
   */
  function Project(id: string, model: Metadata, metrics: seq<string>): (r: Row)
    ensures r.id == id
    ensures r.latency == (if "latency" in metrics then Some(model.latency) else None)
    ensures r.modality == (if "modality" in metrics then Some(model.modality) else None)
    ensures r.popularity == (if "popularity" in metrics then Some(model.popularity) else None)
    ensures r.cost == (if "cost" in metrics then Some(model.cost) else None)
    ensures r.capabilities == (if "capabilities" in metrics then Some(model.capabilities) else None)
  {
    ProjectFrom(Row(id, None, None, None, None, None), model, metrics)
  }

  /**
   * `compareModels`: one row per input id, in input order, the i-th built
   * from the i-th id and the outcome of its own lookup `replies[i]`.
   */
  function CompareModels(models: seq<string>, metrics: seq<string>, replies: seq<Upstream<HfModelInfo>>): (rows: seq<Row>)
    requires |replies| == |models|
    ensures |rows| == |models|
    ensures forall i :: 0 <= i < |models| ==>
      rows[i] == Project(models[i], FetchModelMetadata(models[i], replies[i]), metrics)
    decreases |models|
  {
    if |models| == 0 then []
    else
      [Project(models[0], FetchModelMetadata(models[0], replies[0]), metrics)]
      + CompareModels(models[1..], metrics, replies[1..])
  }

  /** Row i carries id `models[i]`, and a field is present iff its metric was requested. */
  lemma RowsFollowInput(models: seq<string>, metrics: seq<string>, replies: seq<Upstream<HfModelInfo>>, i: int)
    requires |replies| == |models|
    requires 0 <= i < |models|
    ensures CompareModels(models, metrics, replies)[i].id == models[i]
    ensures CompareModels(models, metrics, replies)[i].latency.Some? <==> "latency" in metrics
    ensures CompareModels(models, metrics, replies)[i].modality.Some? <==> "modality" in metrics
    ensures CompareModels(models, metrics, replies)[i].popularity.Some? <==> "popularity" in metrics
    ensures CompareModels(models, metrics, replies)[i].cost.Some? <==> "cost" in metrics
    ensures CompareModels(models, metrics, replies)[i].capabilities.Some? <==> "capabilities" in metrics
  {
  }

  /**
   * A HuggingFace id whose lookup succeeded gets the response's downloads,
   * pipeline tag (or `unknown`) and likes in the requested fields, and a
   * zero cost.
   */
  lemma HuggingFaceRowFromResponse(
    models: seq<string>, metrics: seq<string>, replies: seq<Upstream<HfModelInfo>>, i: int)
    requires |replies| == |models|
    requires 0 <= i < |models|
    requires DetermineProvider(models[i]) == HuggingFace && replies[i].Ok?
    ensures var row, info := CompareModels(models, metrics, replies)[i], replies[i].data;
      && ("latency" in metrics ==> row.latency == Some(info.downloads.GetOr(0)))
      && ("popularity" in metrics ==> row.popularity == Some(info.likes.GetOr(0)))
      && ("modality" in metrics ==> row.modality == Some(
            if Truthy(info.pipelineTag) then info.pipelineTag.value else "unknown"))
      && ("cost" in metrics ==> row.cost == Some(ZeroCost))
  {
  }

  /** A row depends on the set of requested metrics only: order and repetition do not matter. */
  lemma ProjectDependsOnMetricSet(id: string, model: Metadata, m1: seq<string>, m2: seq<string>)
    requires forall s :: s in m1 <==> s in m2
    ensures Project(id, model, m1) == Project(id, model, m2)
  {
    var r1, r2 := Project(id, model, m1), Project(id, model, m2);
    assert r1.latency == r2.latency && r1.modality == r2.modality && r1.popularity == r2.popularity;
    assert r1.cost == r2.cost && r1.capabilities == r2.capabilities;
  }

  /** The outcome of one model's lookup affects that model's row only. */
  lemma LookupFailureIsolated(
    models: seq<string>, metrics: seq<string>,
    replies: seq<Upstream<HfModelInfo>>, j: int, other: Upstream<HfModelInfo>, i: int)
    requires |replies| == |models|
    requires 0 <= j < |models| && 0 <= i < |models| && i != j
    ensures CompareModels(models, metrics, replies[j := other])[i] == CompareModels(models, metrics, replies)[i]
  {
  }

  /** Only the HuggingFace family performs a lookup; the other families ignore its outcome. */
  lemma StaticFamiliesIgnoreLookup(modelId: string, r1: Upstream<HfModelInfo>, r2: Upstream<HfModelInfo>)
    requires DetermineProvider(modelId) != HuggingFace
    ensures FetchModelMetadata(modelId, r1) == FetchModelMetadata(modelId, r2)
  {
  }
}

=== FILE: compare_route.dfy ===
/**
 * The `POST /compare` handler: ordered request checks that either reject
 * with a message or forward both arrays to the comparator.
 */
module CompareRoute {
  import opened Wrappers
  import opened Strings
  import Metrics
  import ModelComparison

  /**
   * A body field that should hold an array of strings: absent or falsy
   * (`undefined`, `null`, `""`, `0`, `false`), some other non-array value,
   * or an array.
   */
  datatype Field = Absent | NotArray | Items(items: seq<string>)

  datatype CompareBody = CompareBody(models: Field, metrics: Field)

  /** A 400 reply with its error text, or the comparator's rows. */
  datatype CompareReply = BadRequest(error: string) | Rows(rows: seq<ModelComparison.Row>)

  const ModelsError := "Invalid request: models must be a non-empty array"
  const MetricsError := "Invalid request: metrics must be a non-empty array"

  /** The field is an array with at least one element. */
  predicate NonEmptyArray(f: Field) {
    f.Items? && |f.items| > 0
  }

  /** The requested names that are not valid metric names, in request order, repeats kept. */
  function InvalidMetrics(metrics: seq<string>): (bad: seq<string>)
    ensures forall s :: s in bad <==> s in metrics && s !in Metrics.ValidNames
    ensures |bad| <= |metrics|
    ensures |bad| == 0 <==> forall s :: s in metrics ==> s in Metrics.ValidNames
    decreases |metrics|
  {
    if |metrics| == 0 then []
    else
      assert metrics == [metrics[0]] + metrics[1..];
      (if metrics[0] in Metrics.ValidNames then [] else [metrics[0]]) + InvalidMetrics(metrics[1..])
  }

  /** The filter keeps input order: it distributes over concatenation. */
  lemma {:induction false} InvalidMetricsAppend(a: seq<string>, b: seq<string>)
    ensures InvalidMetrics(a + b) == InvalidMetrics(a) + InvalidMetrics(b)
    decreases |a|
  {
    if |a| == 0 {
      assert a + b == b;
    } else {
      assert (a + b)[1..] == a[1..] + b;
      assert (a + b)[0] == a[0];
      InvalidMetricsAppend(a[1..], b);
    }
  }

  function InvalidMetricsMessage(bad: seq<string>): string {
    "Invalid metrics: " + Join(bad, ", ") + ". Valid metrics are: " + Join(Metrics.ValidNames, ", ")
  }

  /**
   * The checks, in order: models, then metrics, then every metric name.
   * Success forwards both arrays unchanged.
   */
  function ValidateCompare(body: CompareBody): (r: Result<(seq<string>, seq<string>), string>)
    ensures !NonEmptyArray(body.models) ==> r == Failure(ModelsError)
    ensures NonEmptyArray(body.models) && !NonEmptyArray(body.metrics) ==> r == Failure(MetricsError)
    ensures r.Success? <==>
      && NonEmptyArray(body.models) && NonEmptyArray(body.metrics)
      && forall m :: m in body.metrics.items ==> m in Metrics.ValidNames
    ensures r.Success? ==> r.value == (body.models.items, body.metrics.items)
    ensures NonEmptyArray(body.models) && NonEmptyArray(body.metrics) && r.Failure? ==>
      r.error == InvalidMetricsMessage(InvalidMetrics(body.metrics.items))
  {
    if !NonEmptyArray(body.models) then Failure(ModelsError)
    else if !NonEmptyArray(body.metrics) then Failure(MetricsError)
    else
      var bad := InvalidMetrics(body.metrics.items);
      if |bad| > 0 then Failure(InvalidMetricsMessage(bad))
      else Success((body.models.items, body.metrics.items))
  }

  /**
   * The handler: the comparator runs iff validation passes, and then yields
   * one row per requested model id, in order. `replies` are the comparator's
   * per-model lookup outcomes.
   */
  function HandleCompare(body: CompareBody, replies: seq<Upstream<ModelComparison.HfModelInfo>>): (r: CompareReply)
    requires body.models.Items? ==> |replies| == |body.models.items|
    ensures r.Rows? <==>
      && NonEmptyArray(body.models) && NonEmptyArray(body.metrics)
      && forall m :: m in body.metrics.items ==> m in Metrics.ValidNames
    ensures r.Rows? ==> r.rows == ModelComparison.CompareModels(body.models.items, body.metrics.items, replies)
    ensures r.Rows? ==> |r.rows| == |body.models.items|
    ensures r.Rows? ==> forall i :: 0 <= i < |r.rows| ==> r.rows[i].id == body.models.items[i]
    ensures r.BadRequest? ==> r.error == ValidateCompare(body).error
  {
    match ValidateCompare(body)
    case Failure(e) => BadRequest(e)
    case Success((models, metrics)) => Rows(ModelComparison.CompareModels(models, metrics, replies))
  }

  /** The models check comes first: a bad models field wins over a bad metrics field. */
  lemma ModelsCheckedFirst(body: CompareBody, replies: seq<Upstream<ModelComparison.HfModelInfo>>)
    requires body.models.Items? ==> |replies| == |body.models.items|
    requires !NonEmptyArray(body.models)
    ensures HandleCompare(body, replies) == BadRequest("Invalid request: models must be a non-empty array")
  {
  }
}

=== FILE: demo_route.dfy ===
/**
 * The `POST /demo` handler: ordered checks on the body, an allowlist of
 * providers, and a second `{ demoUrl }` wrapping of the resolver's result.
 */
module DemoRoute {
  import opened Wrappers
  import opened Strings
  import DemoUrlResolver

  /** The two body fields; None stands for an absent or falsy value. */
  datatype DemoBody = DemoBody(modelId: Option<string>, provider: Option<string>)

  /**
   * A 400 reply, a 200 reply whose body is `{ demoUrl: result }` with
   * `result` the resolver's own `{ demoUrl }` object, or a 500 reply
   * carrying the resolver's error message.
   */
  datatype DemoReply =
    | BadRequest(error: string)
    | Served(demoUrl: DemoUrlResolver.DemoUrl)
    | ServerError(error: string)

  /** The providers the route admits, in the order its message lists them. */
  const ValidProviders: seq<string> := ["huggingface", "openai", "claude", "gemini"]

  function InvalidProviderMessage(provider: string): string {
    "Invalid provider: " + provider + ". Valid providers are: " + Join(ValidProviders, ", ")
  }

  /**
   * The handler. `hfReply` and `replicateReply` are the resolver's lookup
   * outcomes. A missing model id is reported before the provider is looked
   * at; the resolver runs only for an allowlisted provider.
   */
  function HandleDemo(
    body: DemoBody,
    hfReply: Upstream<DemoUrlResolver.HfModelPage>,
    replicateReply: Upstream<DemoUrlResolver.ReplicateModel>): (r: DemoReply)
    ensures !Truthy(body.modelId) ==> r == BadRequest("Model ID is required")
    ensures Truthy(body.modelId) && !Truthy(body.provider) ==>
      r == BadRequest("Provider is required")
    ensures (Truthy(body.modelId) && Truthy(body.provider)
             && body.provider.value !in ValidProviders) ==>
      r == BadRequest(InvalidProviderMessage(body.provider.value))
    ensures !r.BadRequest? <==>
      Truthy(body.modelId) && Truthy(body.provider)
      && body.provider.value in ValidProviders
    ensures r.Served? ==> r.demoUrl.demoUrl != ""
    ensures !r.BadRequest? ==>
      var tool := DemoUrlResolver.FetchDemoUrl(body.modelId.value, body.provider.value, hfReply, replicateReply);
      && (r.Served? <==> tool.Success?)
      && (r.Served? ==> r.demoUrl == tool.value)
      && (r.ServerError? ==> r.error == tool.error)
  {
    if !Truthy(body.modelId) then BadRequest("Model ID is required")
    else if !Truthy(body.provider) then BadRequest("Provider is required")
    else if body.provider.value !in ValidProviders then BadRequest(InvalidProviderMessage(body.provider.value))
    else
      match DemoUrlResolver.FetchDemoUrl(body.modelId.value, body.provider.value, hfReply, replicateReply)
      case Success(result) => Served(result)
      case Failure(message) => ServerError(message)
  }

  /**
   * Route and resolver together: a request is served iff it names a model
   * and the provider huggingface, the only provider both of them accept.
   */
  lemma OnlyHuggingFaceServed(
    body: DemoBody,
    hfReply: Upstream<DemoUrlResolver.HfModelPage>,
    replicateReply: Upstream<DemoUrlResolver.ReplicateModel>)
    ensures HandleDemo(body, hfReply, replicateReply).Served? <==>
      Truthy(body.modelId) && body.provider == Some("huggingface")
  {
  }

  /** openai, claude and gemini pass the allowlist, and then the resolver refuses them. */
  lemma AllowlistedVendorsFail(
    modelId: string, provider: string,
    hfReply: Upstream<DemoUrlResolver.HfModelPage>,
    replicateReply: Upstream<DemoUrlResolver.ReplicateModel>)
    requires modelId != ""
    requires provider in {"openai", "claude", "gemini"}
    ensures HandleDemo(DemoBody(Some(modelId), Some(provider)), hfReply, replicateReply)
      == ServerError("Unsupported provider: " + provider)
  {
  }

  /** replicate and stability, which the resolver handles, are refused by the allowlist. */
  lemma ResolvableProvidersRejected(
    modelId: string, provider: string,
    hfReply: Upstream<DemoUrlResolver.HfModelPage>,
    replicateReply: Upstream<DemoUrlResolver.ReplicateModel>)
    requires modelId != ""
    requires provider in {"replicate", "stability"}
    ensures DemoUrlResolver.FetchDemoUrl(modelId, provider, hfReply, replicateReply).Success?
    ensures HandleDemo(DemoBody(Some(modelId), Some(provider)), hfReply, replicateReply)
      == BadRequest(InvalidProviderMessage(provider))
  {
  }
}

=== FILE: fetch_demo_url.dfy ===
/**
 * The demo-URL resolver: a provider switch whose live lookups always fall
 * back to a canonical page when they fail or find nothing.
 */
module DemoUrlResolver {
  import opened Wrappers
  import opened Providers

  /** An entry of the `spaces` array of a HuggingFace model response. */
  datatype Space = Space(url: Option<string>)

  /** The part of a HuggingFace `GET /api/models/<id>` response the resolver reads. */
  datatype HfModelPage = HfModelPage(spaces: Option<seq<Space>>)

  /** The part of a Replicate `GET /v1/models/<id>` response the resolver reads. */
  datatype ReplicateModel = ReplicateModel(url: Option<string>)

  /** The resolver's result object `{ demoUrl }`. */
  datatype DemoUrl = DemoUrl(demoUrl: string)

  const HuggingFacePage := "https://huggingface.co/"
  const ReplicatePage := "https://replicate.com/"
  const StabilityDocs := "https://platform.stability.ai/docs/api-reference"

  /** The url of the first listed space; nothing when no space is listed or the first has no url. */
  function FirstSpaceUrl(page: HfModelPage): Option<string> {
    if page.spaces.Some? && |page.spaces.value| > 0 then page.spaces.value[0].url else None
  }

  /**
   * The first space's url when there is one and it is not empty; otherwise,
   * including when the lookup failed, the model's own page. Never fails.
   */
  function HuggingFaceDemo(modelId: string, reply: Upstream<HfModelPage>): (r: DemoUrl)
    ensures r.demoUrl != ""
    ensures reply.Ok? && Truthy(FirstSpaceUrl(reply.data)) ==> r.demoUrl == FirstSpaceUrl(reply.data).value
    ensures !(reply.Ok? && Truthy(FirstSpaceUrl(reply.data))) ==> r.demoUrl == "https://huggingface.co/" + modelId
  {
    match reply
    case Ok(page) =>
      var spaceUrl := FirstSpaceUrl(page);
      if Truthy(spaceUrl) then DemoUrl(spaceUrl.value) else DemoUrl(HuggingFacePage + modelId)
    case Fail(_) => DemoUrl(HuggingFacePage + modelId)
  }

  /** The model's `url` when it is not empty, otherwise (or on failure) its Replicate page. */
  function ReplicateDemo(modelId: string, reply: Upstream<ReplicateModel>): (r: DemoUrl)
    ensures r.demoUrl != ""
    ensures reply.Ok? && Truthy(reply.data.url) ==> r.demoUrl == reply.data.url.value
    ensures !(reply.Ok? && Truthy(reply.data.url)) ==> r.demoUrl == "https://replicate.com/" + modelId
  {
    match reply
    case Ok(model) => DemoUrl(if Truthy(model.url) then model.url.value else ReplicatePage + modelId)
    case Fail(_) => DemoUrl(ReplicatePage + modelId)
  }

  /** Stability has no per-model demo: its API reference, whatever the model. */
  function StabilityDemo(modelId: string): DemoUrl {
    DemoUrl(StabilityDocs)
  }

  /**
   * `fetchDemoURL`: resolves for huggingface, replicate and stability, each
   * with a non-empty URL, and fails naming the tag for every other provider,
   * openai, claude and gemini included. Only the reply of the selected
   * provider's lookup is read.
   */
  function FetchDemoUrl(
    modelId: string, provider: string,
    hfReply: Upstream<HfModelPage>, replicateReply: Upstream<ReplicateModel>): (r: Result<DemoUrl, string>)
    ensures r.Success? <==> provider in {"huggingface", "replicate", "stability"}
    ensures r.Failure? ==> r.error == "Unsupported provider: " + provider
    ensures r.Success? ==> r.value.demoUrl != ""
    ensures provider == "huggingface" ==> r == Success(HuggingFaceDemo(modelId, hfReply))
    ensures provider == "replicate" ==> r == Success(ReplicateDemo(modelId, replicateReply))
    ensures provider == "stability" ==> r == Success(DemoUrl("https://platform.stability.ai/docs/api-reference"))
  {
    match Parse(provider)
    case Some(HuggingFace) => Success(HuggingFaceDemo(modelId, hfReply))
    case Some(Replicate) => Success(ReplicateDemo(modelId, replicateReply))
    case Some(Stability) => Success(StabilityDemo(modelId))
    case _ => Failure("Unsupported provider: " + provider)
  }

  /** A failed HuggingFace lookup, or one listing no spaces, lands on the model page. */
  lemma HuggingFaceFallback(modelId: string, hfReply: Upstream<HfModelPage>, replicateReply: Upstream<ReplicateModel>)
    requires hfReply.Fail? || hfReply.data.spaces == None || hfReply.data.spaces == Some([])
    ensures FetchDemoUrl(modelId, "huggingface", hfReply, replicateReply)
      == Success(DemoUrl("https://huggingface.co/" + modelId))
  {
  }

  /**
   * For huggingface and replicate the resolved URL is the first truthy
   * candidate: the looked-up url, else the model's canonical page.
   */
  lemma LookupOrCanonicalPage(
    modelId: string, provider: string,
    hfReply: Upstream<HfModelPage>, replicateReply: Upstream<ReplicateModel>)
    requires provider in {"huggingface", "replicate"}
    ensures var found :=
        if provider == "huggingface"
        then (if hfReply.Ok? then FirstSpaceUrl(hfReply.data) else None)
        else (if replicateReply.Ok? then replicateReply.data.url else None);
      var page := (if provider == "huggingface" then "https://huggingface.co/" else "https://replicate.com/") + modelId;
      FetchDemoUrl(modelId, provider, hfReply, replicateReply)
        == Success(DemoUrl(if Truthy(found) then found.value else page))
  {
  }

  /** The Stability answer is the same constant for every model id and every lookup state. */
  lemma StabilityConstant(
    id1: string, id2: string,
    hf1: Upstream<HfModelPage>, hf2: Upstream<HfModelPage>,
    rep1: Upstream<ReplicateModel>, rep2: Upstream<ReplicateModel>)
    ensures FetchDemoUrl(id1, "stability", hf1, rep1) == FetchDemoUrl(id2, "stability", hf2, rep2)
    ensures FetchDemoUrl(id1, "stability", hf1, rep1)
      == Success(DemoUrl("https://platform.stability.ai/docs/api-reference"))
  {
  }
}

=== FILE: inference_runner.dfy ===
/**
 * The inference dispatcher: maps a request and the process's credentials to
 * exactly one provider-specific HTTP request, or to an error, and passes the
 * upstream response body back unchanged.
 */
module InferenceRunner {
  import opened Wrappers
  import opened JsonValue
  import opened Providers

  /** An inference request as the body carries it; `provider` is not yet checked. */
  datatype InferenceRequest = InferenceRequest(
    modelId: string,
    provider: string,
    input: Object,
    modality: Option<string>)

  /** One outbound `POST`. */
  datatype HttpRequest = HttpRequest(url: string, body: Object, headers: map<string, string>)

  datatype InferenceError =
    | UnsupportedProvider(tag: string)
    | MissingCredential(provider: Provider)
    | UpstreamError(reason: string)

  /** The environment, as the variable name to value map `process.env` offers. */
  type Env = map<string, string>

  /** What one inference call did: the request it sent, if any, and what it returned. */
  datatype Exchange = Exchange(sent: Option<HttpRequest>, result: Result<Json, InferenceError>)

  /** The environment variable holding each provider's credential. */
  function CredentialVar(p: Provider): string {
    match p
    case HuggingFace => "HUGGINGFACE_API_KEY"
    case Replicate => "REPLICATE_API_KEY"
    case Stability => "STABILITY_API_KEY"
    case OpenAI => "OPENAI_API_KEY"
    case Claude => "ANTHROPIC_API_KEY"
    case Gemini => "GOOGLE_API_KEY"
  }

  /** An environment variable's value, absent when the variable is not set. */
  function Lookup(env: Env, name: string): Option<string> {
    if name in env then Some(env[name]) else None
  }

  /** The provider's credential variable is set and not empty. */
  predicate HasCredential(env: Env, p: Provider) {
    Truthy(Lookup(env, CredentialVar(p)))
  }

  /** The error message the caller sees. */
  function Message(e: InferenceError): string {
    match e
    case UnsupportedProvider(tag) => "Unsupported provider: " + tag
    case MissingCredential(HuggingFace) => "HuggingFace API key not configured"
    case MissingCredential(Replicate) => "Replicate API key not configured"
    case MissingCredential(Stability) => "Stability API key not configured"
    case MissingCredential(OpenAI) => "OpenAI API key not configured"
    case MissingCredential(Claude) => "Anthropic API key not configured"
    case MissingCredential(Gemini) => "Google API key not configured"
    case UpstreamError(reason) => reason
  }

  const JsonContent := "application/json"
  const HuggingFaceBase := "https://api-inference.huggingface.co/models/"
  const ReplicateUrl := "https://api.replicate.com/v1/predictions"
  const StabilityUrl := "https://api.stability.ai/v1/generation/stable-diffusion-xl-1024-v1-0/text-to-image"
  const OpenAIChatUrl := "https://api.openai.com/v1/chat/completions"
  const OpenAIImagesUrl := "https://api.openai.com/v1/images/generations"
  const OpenAIAudioUrl := "https://api.openai.com/v1/audio/transcriptions"
  const ClaudeUrl := "https://api.anthropic.com/v1/messages"
  const GeminiBase := "https://generativelanguage.googleapis.com/v1beta/models/"
  const GeminiSuffix := ":generateContent"
  const AnthropicVersion := "2023-06-01"

  /** The input's members plus `model`; the input is spread last, so its own `model` wins. */
  function WithModel(modelId: string, input: Object): (body: Object)
    ensures body.Keys == input.Keys + {"model"}
    ensures body["model"] == if "model" in input then input["model"] else JString(modelId)
    ensures forall k :: k in input ==> body[k] == input[k]
  {
    map["model" := JString(modelId)] + input
  }

  /** The OpenAI REST path for a modality: images and audio have their own, all else is chat. */
  function OpenAIEndpoint(modality: Option<string>): string {
    if modality == Some("image") then OpenAIImagesUrl
    else if modality == Some("audio") then OpenAIAudioUrl
    else OpenAIChatUrl
  }

  /** The request sent to provider `p` with credential `key`. */
  function ProviderRequest(p: Provider, req: InferenceRequest, key: string): (h: HttpRequest)
    ensures "Content-Type" in h.headers && h.headers["Content-Type"] == JsonContent
  {
    match p
    case HuggingFace =>
      HttpRequest(HuggingFaceBase + req.modelId, req.input,
                  map["Authorization" := "Bearer " + key, "Content-Type" := JsonContent])
    case Replicate =>
      HttpRequest(ReplicateUrl,
                  map["version" := JString(req.modelId), "input" := JObject(req.input)],
                  map["Authorization" := "Token " + key, "Content-Type" := JsonContent])
    case Stability =>
      HttpRequest(StabilityUrl, req.input,
                  map["Authorization" := "Bearer " + key, "Content-Type" := JsonContent])
    case OpenAI =>
      HttpRequest(OpenAIEndpoint(req.modality), WithModel(req.modelId, req.input),
                  map["Authorization" := "Bearer " + key, "Content-Type" := JsonContent])
    case Claude =>
      HttpRequest(ClaudeUrl, WithModel(req.modelId, req.input),
                  map["x-api-key" := key, "anthropic-version" := AnthropicVersion,
                      "Content-Type" := JsonContent])
    case Gemini =>
      HttpRequest(GeminiBase + req.modelId + GeminiSuffix, req.input,
                  map["x-goog-api-key" := key, "Content-Type" := JsonContent])
  }

  /**
   * Chooses the provider and checks its credential. An unknown tag fails
   * naming the tag; a known provider fails exactly when its own credential
   * is missing; otherwise one request is built, carrying that credential.
   */
  function BuildRequest(req: InferenceRequest, env: Env): (r: Result<HttpRequest, InferenceError>)
    ensures Parse(req.provider).None? <==> r == Failure(UnsupportedProvider(req.provider))
    ensures Parse(req.provider).Some? ==>
      (r.Failure? <==> !HasCredential(env, Parse(req.provider).value))
    ensures r.Failure? && Parse(req.provider).Some? ==>
      r.error == MissingCredential(Parse(req.provider).value)
    ensures r.Success? ==> "Content-Type" in r.value.headers && r.value.headers["Content-Type"] == JsonContent
  {
    match Parse(req.provider)
    case None => Failure(UnsupportedProvider(req.provider))
    case Some(p) =>
      if !HasCredential(env, p) then Failure(MissingCredential(p))
      else Success(ProviderRequest(p, req, env[CredentialVar(p)]))
  }

  /**
   * `inferenceRunner` over an abstract transport: `reply` is what the one
   * `POST` returns. No request is sent when building fails; otherwise the
   * upstream body comes back unchanged and an upstream error propagates
   * with its own message.
   */
  function Run(req: InferenceRequest, env: Env, reply: Upstream<Json>): (x: Exchange)
    ensures x.sent.None? <==> BuildRequest(req, env).Failure?
    ensures x.sent.Some? ==> BuildRequest(req, env) == Success(x.sent.value)
    ensures x.result.Success? <==> x.sent.Some? && reply.Ok?
    ensures x.result.Success? ==> x.result.value == reply.data
    ensures x.sent.Some? && reply.Fail? ==> Message(x.result.error) == reply.reason
    ensures x.sent.None? ==> x.result == Failure(BuildRequest(req, env).error)
  {
    match BuildRequest(req, env)
    case Failure(e) => Exchange(None, Failure(e))
    case Success(h) =>
      match reply
      case Ok(data) => Exchange(Some(h), Success(data))
      case Fail(reason) => Exchange(Some(h), Failure(UpstreamError(reason)))
  }

  /** The unknown-provider message names the offending tag. */
  lemma UnsupportedProviderMessage(req: InferenceRequest, env: Env, reply: Upstream<Json>)
    requires Parse(req.provider).None?
    ensures Run(req, env, reply).sent.None?
    ensures Message(Run(req, env, reply).result.error) == "Unsupported provider: " + req.provider
  {
  }

  /** Only the selected provider's credential matters; other variables may be anything. */
  lemma CredentialIsolation(req: InferenceRequest, env1: Env, env2: Env)
    requires Parse(req.provider).Some?
    requires var v := CredentialVar(Parse(req.provider).value);
      (v in env1 <==> v in env2) && (v in env1 ==> env1[v] == env2[v])
    ensures BuildRequest(req, env1) == BuildRequest(req, env2)
  {
  }

  /** HuggingFace posts the input verbatim to the model's URL with Bearer auth. */
  lemma HuggingFaceRequest(req: InferenceRequest, env: Env)
    requires req.provider == "huggingface" && HasCredential(env, HuggingFace)
    ensures var h := BuildRequest(req, env).value;
      && h.url == "https://api-inference.huggingface.co/models/" + req.modelId
      && h.body == req.input
      && h.headers == map["Authorization" := "Bearer " + env["HUGGINGFACE_API_KEY"],
                          "Content-Type" := "application/json"]
  {
  }

  /** Replicate wraps the input with the model id as `version`, and uses Token auth. */
  lemma ReplicateRequest(req: InferenceRequest, env: Env)
    requires req.provider == "replicate" && HasCredential(env, Replicate)
    ensures var h := BuildRequest(req, env).value;
      && h.url == "https://api.replicate.com/v1/predictions"
      && h.body == map["version" := JString(req.modelId), "input" := JObject(req.input)]
      && h.headers == map["Authorization" := "Token " + env["REPLICATE_API_KEY"],
                          "Content-Type" := "application/json"]
  {
  }

  /** Stability's request does not depend on the model id at all. */
  lemma StabilityIgnoresModelId(req: InferenceRequest, env: Env, otherId: string)
    requires req.provider == "stability" && HasCredential(env, Stability)
    ensures BuildRequest(req, env) == BuildRequest(req.(modelId := otherId), env)
    ensures BuildRequest(req, env).value.body == req.input
    ensures BuildRequest(req, env).value.url
      == "https://api.stability.ai/v1/generation/stable-diffusion-xl-1024-v1-0/text-to-image"
    ensures BuildRequest(req, env).value.headers
      == map["Authorization" := "Bearer " + env["STABILITY_API_KEY"], "Content-Type" := "application/json"]
  {
  }

  /** OpenAI's endpoint follows the modality: image, audio, and chat for anything else. */
  lemma OpenAIEndpointSelection(req: InferenceRequest, env: Env)
    requires req.provider == "openai" && HasCredential(env, OpenAI)
    ensures var url := BuildRequest(req, env).value.url;
      && (req.modality == Some("image") <==> url == "https://api.openai.com/v1/images/generations")
      && (req.modality == Some("audio") <==> url == "https://api.openai.com/v1/audio/transcriptions")
      && (req.modality != Some("image") && req.modality != Some("audio") <==>
          url == "https://api.openai.com/v1/chat/completions")
    ensures BuildRequest(req, env).value.headers
      == map["Authorization" := "Bearer " + env["OPENAI_API_KEY"], "Content-Type" := "application/json"]
  {
  }

  /** OpenAI and Claude bodies hold every input key plus `model`, and `input.model` overrides the id. */
  lemma ModelKeyOverride(req: InferenceRequest, env: Env)
    requires Parse(req.provider) == Some(OpenAI) || Parse(req.provider) == Some(Claude)
    requires HasCredential(env, Parse(req.provider).value)
    ensures var body := BuildRequest(req, env).value.body;
      && body.Keys == req.input.Keys + {"model"}
      && (forall k :: k in req.input ==> body[k] == req.input[k])
      && ("model" !in req.input ==> body["model"] == JString(req.modelId))
  {
  }

  /** Claude authenticates with `x-api-key` and a fixed API version, never an Authorization header. */
  lemma ClaudeHeaders(req: InferenceRequest, env: Env)
    requires req.provider == "claude" && HasCredential(env, Claude)
    ensures BuildRequest(req, env).value.url == "https://api.anthropic.com/v1/messages"
    ensures var hs := BuildRequest(req, env).value.headers;
      && "Authorization" !in hs
      && hs == map["x-api-key" := env["ANTHROPIC_API_KEY"], "anthropic-version" := "2023-06-01",
                   "Content-Type" := "application/json"]
  {
  }

  /** Gemini posts the input verbatim to the model's generateContent URL with `x-goog-api-key`. */
  lemma GeminiRequest(req: InferenceRequest, env: Env)
    requires req.provider == "gemini" && HasCredential(env, Gemini)
    ensures var h := BuildRequest(req, env).value;
      && h.url == "https://generativelanguage.googleapis.com/v1beta/models/" + req.modelId + ":generateContent"
      && h.body == req.input
      && "Authorization" !in h.headers
      && h.headers == map["x-goog-api-key" := env["GOOGLE_API_KEY"], "Content-Type" := "application/json"]
  {
  }
}

=== FILE: json.dfy ===
/** Opaque JSON payloads, passed through the inference dispatcher untouched. */
module JsonValue {

  datatype Json =
    | JNull
    | JBool(b: bool)
    | JNumber(n: real)
    | JString(s: string)
    | JArray(items: seq<Json>)
    | JObject(members: Object)

  /** A JSON object; key order is a serialisation detail and is not modelled. */
  type Object = map<string, Json>
}

=== FILE: metrics.dfy ===
/** The five comparison metrics a caller may request. */
module Metrics {
  import opened Wrappers

  datatype Metric = Latency | Modality | Popularity | Cost | Capabilities

  function Name(m: Metric): string {
    match m
    case Latency => "latency"
    case Modality => "modality"
    case Popularity => "popularity"
    case Cost => "cost"
    case Capabilities => "capabilities"
  }

  /** The valid metric names, in the order the compare route lists them. */
  const ValidNames: seq<string> := ["latency", "modality", "popularity", "cost", "capabilities"]

  /** Reads a metric name; any other string names no metric. */
  function Parse(s: string): (r: Option<Metric>)
    ensures r.Some? <==> s in ValidNames
    ensures r.Some? ==> Name(r.value) == s
  {
    if s == "latency" then Some(Latency)
    else if s == "modality" then Some(Modality)
    else if s == "popularity" then Some(Popularity)
    else if s == "cost" then Some(Cost)
    else if s == "capabilities" then Some(Capabilities)
    else None
  }

  /** Every metric's name is valid and reads back as that metric. */
  lemma ParseName(m: Metric)
    ensures Name(m) in ValidNames
    ensures Parse(Name(m)) == Some(m)
  {
  }
}

=== FILE: providers.dfy ===
/** The closed set of upstream providers and their wire tags. */
module Providers {
  import opened Wrappers

  datatype Provider = HuggingFace | Replicate | Stability | OpenAI | Claude | Gemini

  /** The tag a request body carries for each provider. */
  function Tag(p: Provider): string {
    match p
    case HuggingFace => "huggingface"
    case Replicate => "replicate"
    case Stability => "stability"
    case OpenAI => "openai"
    case Claude => "claude"
    case Gemini => "gemini"
  }

  /** Reads a provider tag as the source's `switch (provider)` does; unknown tags give None. */
  function Parse(tag: string): (r: Option<Provider>)
    ensures r.Some? ==> Tag(r.value) == tag
    ensures (exists p :: Tag(p) == tag) ==> r.Some?
  {
    if tag == "huggingface" then Some(HuggingFace)
    else if tag == "replicate" then Some(Replicate)
    else if tag == "stability" then Some(Stability)
    else if tag == "openai" then Some(OpenAI)
    else if tag == "claude" then Some(Claude)
    else if tag == "gemini" then Some(Gemini)
    else None
  }

  /** Tags are distinct, so parsing a provider's own tag gives that provider back. */
  lemma ParseTag(p: Provider)
    ensures Parse(Tag(p)) == Some(p)
  {
  }
}

=== FILE: scenarios.dfy ===
/** Concrete cases from the repository's test cases and its price tables. */
module Scenarios {
  import opened Wrappers
  import opened JsonValue
  import opened ModelComparison
  import Providers
  import InferenceRunner
  import DemoUrlResolver
  import DemoRoute

  /** `gpt-4` with cost and capabilities requested: table price and capabilities, nothing else. */
  lemma Gpt4CostAndCapabilities(reply: Upstream<HfModelInfo>)
    ensures CompareModels(["gpt-4"], ["cost", "capabilities"], [reply]) ==
      [Row("gpt-4", None, None, None, Some(Cost(0.03, 0.06)),
           Some(Capabilities(true, true, false, false, true)))]
  {
  }

  /** A HuggingFace response is projected onto latency, modality and popularity. */
  lemma HuggingFaceRow()
    ensures CompareModels(["test-model-1"], ["latency", "modality", "popularity"],
      [Ok(HfModelInfo(Some("text-generation"), Some(1000), Some(500), Some(["nlp", "text"])))]) ==
      [Row("test-model-1", Some(1000), Some("text-generation"), Some(500), None, None)]
  {
    var id := "test-model-1";
    assert id[0] == 't' && id[2] == 's';
    assert DetermineProvider(id) == Providers.HuggingFace;
  }

  /** A rejected HuggingFace lookup gives zero latency and popularity and an `unknown` modality. */
  lemma FailedLookupRow(reason: string)
    ensures CompareModels(["test-model-1"], ["latency", "modality", "popularity"], [Fail(reason)]) ==
      [Row("test-model-1", Some(0), Some("unknown"), Some(0), None, None)]
  {
    var id := "test-model-1";
    assert id[0] == 't' && id[2] == 's';
    assert DetermineProvider(id) == Providers.HuggingFace;
    assert FetchModelMetadata(id, Fail(reason)) == DefaultMetadata;
  }

  /** With every metric requested, a rejected lookup shows the whole default record. */
  lemma FailedLookupAllMetrics(reason: string)
    ensures CompareModels(["unknown-model"], ["latency", "modality", "popularity", "cost", "capabilities"],
      [Fail(reason)]) ==
      [Row("unknown-model", Some(0), Some("unknown"), Some(0), Some(Cost(0.0, 0.0)),
           Some(Capabilities(false, false, false, false, false)))]
  {
    var id := "unknown-model";
    assert id[0] == 'u';
    assert DetermineProvider(id) == Providers.HuggingFace;
    assert FetchModelMetadata(id, Fail(reason)) == DefaultMetadata;
  }

  /** HuggingFace inference posts the input verbatim and returns the upstream body. */
  lemma HuggingFaceInference(env: InferenceRunner.Env)
    requires InferenceRunner.HasCredential(env, Providers.HuggingFace)
    ensures var input := map["prompt" := JString("test prompt")];
      var x := InferenceRunner.Run(
        InferenceRunner.InferenceRequest("test-model", "huggingface", input, None), env,
        Ok(JObject(map["result" := JString("test result")])));
      && x.sent.Some?
      && x.sent.value.url == "https://api-inference.huggingface.co/models/test-model"
      && x.sent.value.body == input
      && x.result == Success(JObject(map["result" := JString("test result")]))
  {
  }

  /** A space-less HuggingFace model is served its model page, wrapped twice in `demoUrl`. */
  lemma DemoWithoutSpaces(replicateReply: Upstream<DemoUrlResolver.ReplicateModel>)
    ensures DemoRoute.HandleDemo(
      DemoRoute.DemoBody(Some("test-model"), Some("huggingface")),
      Ok(DemoUrlResolver.HfModelPage(Some([]))), replicateReply)
      == DemoRoute.Served(DemoUrlResolver.DemoUrl("https://huggingface.co/test-model"))
  {
  }
}

=== FILE: strings.dfy ===
/** String helpers with JavaScript's meaning. */
module Strings {

  /** The strings in order, with `sep` between each neighbouring pair. */
  function Join(xs: seq<string>, sep: string): (r: string)
    ensures |xs| == 0 ==> r == ""
    ensures |xs| == 1 ==> r == xs[0]
    ensures forall i :: 0 <= i < |xs| ==> |xs[i]| <= |r|
  {
    if |xs| == 0 then ""
    else if |xs| == 1 then xs[0]
    else xs[0] + sep + Join(xs[1..], sep)
  }

  /** Joining two non-empty lists puts exactly one separator between their joins. */
  lemma {:induction false} JoinAppend(xs: seq<string>, ys: seq<string>, sep: string)
    requires |xs| > 0 && |ys| > 0
    ensures Join(xs + ys, sep) == Join(xs, sep) + sep + Join(ys, sep)
    decreases |xs|
  {
    if |xs| == 1 {
      assert (xs + ys)[1..] == ys;
    } else {
      assert (xs + ys)[1..] == xs[1..] + ys;
      JoinAppend(xs[1..], ys, sep);
    }
  }
}

=== FILE: wrappers.dfy ===
/** Failure-carrying values shared by every component of the model. */
module Wrappers {

  /** A value that may be absent: an `undefined` or `null` field of a JSON body. */
  datatype Option<+T> = None | Some(value: T) {

    /** The carried value, or `default` when absent. */
    function GetOr(default: T): T {
      match this
      case Some(v) => v
      case None => default
    }
  }

  /** The outcome of an operation that either returns a value or throws an error. */
  datatype Result<+R, +E> = Success(value: R) | Failure(error: E)

  /**
   * What one outbound HTTP call produced: the response body, or a rejected
   * promise (network error, non-2xx status) with its error message.
   * The model never performs a call; it is handed this outcome.
   */
  datatype Upstream<+T> = Ok(data: T) | Fail(reason: string)

  /** A JavaScript-truthy string: present and not empty. */
  predicate Truthy(s: Option<string>) {
    s.Some? && s.value != ""
  }
}
